=== FILE: README.md ===
# Upstage Solar chat node for n8n — a Dafny model

This project models the core of the n8n community node for Upstage Solar LLMs:

- the `execute` method of the chat node (`LmChatUpstage`), which for each input item validates
  the chat messages, builds the request body (rewriting `response_format` into the API's
  object form), sends one authenticated POST to the chat-completions endpoint, maps the
  response, and applies the continue-on-fail policy;
- the error taxonomy: the `UpstageApiError` class, the normaliser `handleApiError`, the four
  validators and `createErrorResponse`;
- the duck-typed guards `isApiError` and `isErrorWithStatusCode`, and the declared request
  and response shapes;
- request construction in the API client (`makeRequest` option and header merging, the five
  endpoint methods, the mutable timeout and base URL, the streaming stub, the factory);
- proxy selection from the environment (`getHttpProxyAgent`).

JavaScript values are modelled by `JsValues.JsValue` (undefined, null, booleans, numbers,
strings, arrays and objects, where an object records whether it is a plain object, an `Error`
or an `UpstageApiError`, which decides `instanceof` and the inherited `message`/`name` keys).
A thrown value is the `Err` side of a `Result`; `handleApiError`, which never returns, is a
function giving the value it throws. The HTTP helpers, `JSON.parse` and the process
environment are parameters. `String.prototype.trim` is modelled exactly over the ECMAScript
white-space and line-terminator characters. The client's mutable fields become an immutable
value whose setters return the updated client. The node's request body, built dynamically in
the source, is a record with one optional field per key it can hold (`Types.RequestBodyObject`);
the declared `ChatRequestBody` maps into it, so the two can be compared.

Modules: `Results` (option/result types), `JsValues`, `Constants`
(src/constants/index.ts), `Types` (src/types/index.ts), `ErrorHandler`
(src/utils/errorHandler.ts), `HttpProxyAgent` (src/utils/httpProxyAgent.ts), `ApiClient`
(src/utils/apiClient.ts) and `LmChatUpstage` (the node's `execute`).

Where the code's declared types suggest otherwise, the model follows the code:

- The node's own validation throws plain `Error`s without a `code`, so under continue-on-fail
  every validation failure (and the node's own schema failure) is recorded with
  `error_code: 'unknown_error'`, not with one of the validators' codes.
- The proxy chain uses `??`: a set but empty `HTTPS_PROXY` is selected and yields no agent,
  even when a later variable holds an address.
- A transport failure that has a `statusCode` but no `code` key is not API-shaped, so
  `handleApiError` drops both its message and its status code.
- When `response_format` is absent or `'text'` the body is left as spread. With `'text'`,
  or with schema text given, the raw format string or the `json_schema` text is sent, so
  the body is not of the declared `ChatRequestBody` shape; only an absent format with no
  schema text yields a declared body. With `json_schema` but no schema text (or any other
  format string), the raw `response_format` string stays too; only the `json_schema` key goes.

## Model

| member | source | states |
|---|---|---|
| JsValues.Trim | src/nodes/LmChatUpstage/LmChatUpstage.node.ts:274 | `trim()` yields the empty string exactly when the text consists only of white space and line terminators |
| LmChatUpstage.ContentIsEmptyIffBlank | src/nodes/LmChatUpstage/LmChatUpstage.node.ts:274 | a message's content counts as empty exactly when it is absent or all white space |
| LmChatUpstage.MessageProblem | src/nodes/LmChatUpstage/LmChatUpstage.node.ts:273-279 | a message passes exactly when its content is visible and its role is one of the three; content is checked before role, with the two fixed error texts |
| LmChatUpstage.FirstProblem | src/nodes/LmChatUpstage/LmChatUpstage.node.ts:273-280 | no problem exactly when every message passes; otherwise the problem of the first failing message, all earlier ones passing |
| LmChatUpstage.ValidateMessages | src/nodes/LmChatUpstage/LmChatUpstage.node.ts:267-280 | a missing or empty list fails with "At least one message is required for chat completion"; the list passes exactly when non-empty and every message passes; otherwise the error is a plain Error with the first failing message's text |
| LmChatUpstage.ValidMessagesAreWellTyped | src/nodes/LmChatUpstage/LmChatUpstage.node.ts:267-280 | every message of a validated list has a role among the declared three and visible content |
| LmChatUpstage.NodeRoleCheckAgreesWithValidator | src/nodes/LmChatUpstage/LmChatUpstage.node.ts:277-279 | the node's inline role check accepts exactly the roles `validateMessageRole` accepts, but its error text differs and carries no code |
| LmChatUpstage.BaseBody | src/nodes/LmChatUpstage/LmChatUpstage.node.ts:283-287 | the spread body holds the given model and messages and each of the seven tuning options unchanged, the format as its raw string and the schema text as given |
| LmChatUpstage.BuildRequestBody | src/nodes/LmChatUpstage/LmChatUpstage.node.ts:283-306 | fails ("Invalid JSON schema provided") exactly for `json_schema` with schema text that does not parse; keys other than the format and schema are those of the spread; no rewrite leaves the spread as it is; a rewrite removes the `json_schema` key |
| LmChatUpstage.JsonObjectFormat | src/nodes/LmChatUpstage/LmChatUpstage.node.ts:291-292 | with `json_object` the format is exactly `{type: 'json_object'}` and there is no `json_schema` key |
| LmChatUpstage.JsonSchemaFormat | src/nodes/LmChatUpstage/LmChatUpstage.node.ts:293-305 | with `json_schema`, parseable text gives `{type: 'json_schema', json_schema: parsed}`, absent or empty text leaves the raw string, and the `json_schema` key is always removed |
| LmChatUpstage.TextFormatKeepsRawFields | src/nodes/LmChatUpstage/LmChatUpstage.node.ts:289-290 | with `'text'` the raw format string and the schema text stay, and the body is the object of no declared request body |
| LmChatUpstage.RewrittenBodyIsDeclared | src/types/index.ts:1-29 | a body whose format was rewritten into an object, whose messages all have a declared role and string content, and whose parsed schema (if any) is an object or array, is the object of a well-typed declared `ChatRequestBody` |
| LmChatUpstage.PrimitiveSchemaIsUndeclared | src/nodes/LmChatUpstage/LmChatUpstage.node.ts:293-299 | schema text that parses to `null` or a primitive is still sent under `json_schema`, and no declared body with a well-typed format (types/index.ts:28 requires an `object`) denotes the result, whatever its messages |
| LmChatUpstage.FirstChoiceContent | src/nodes/LmChatUpstage/LmChatUpstage.node.ts:332-333 | the extracted content is truthy or the empty string |
| LmChatUpstage.MapResponse | src/nodes/LmChatUpstage/LmChatUpstage.node.ts:322-345 | a streamed response passes through unchanged; a nullish one throws a TypeError without a code; otherwise the summary holds the first choice's content, usage, model, created and the full response |
| LmChatUpstage.MapDeclaredResponse | src/types/index.ts:57-75 | a response of the declared shape maps to its first choice's content (or `''` when there is none or it is empty) and its usage, model and creation time |
| LmChatUpstage.ProcessItem | src/nodes/LmChatUpstage/LmChatUpstage.node.ts:262-320 | an item that sends nothing has failed; what it sends is the authenticated `upstageApi` JSON POST to the chat-completions URL |
| LmChatUpstage.ProcessItemStages | src/nodes/LmChatUpstage/LmChatUpstage.node.ts:262-345 | a validation failure is the item's result and sends nothing; a request goes out exactly when validation and body building succeed, carrying the built body; the result is then the transport's failure or the mapped response |
| LmChatUpstage.MissingMessagesSendNothing | src/nodes/LmChatUpstage/LmChatUpstage.node.ts:268-270 | a missing or empty list fails with its fixed text and no request is made |
| LmChatUpstage.SingleUserMessageIsValid | src/nodes/LmChatUpstage/LmChatUpstage.node.ts:268-280 | one user message whose content starts with a visible character passes validation unchanged |
| LmChatUpstage.SingleMessageScenario | src/nodes/LmChatUpstage/LmChatUpstage.node.ts:283-320 | one user message to `solar-mini` without options sends one request whose body holds only the model and the messages |
| LmChatUpstage.ValidationFailureIsUnknownError | src/nodes/LmChatUpstage/LmChatUpstage.node.ts:346-364 | every validation failure is an Error without a `code`, recorded with its text and `'unknown_error'` |
| LmChatUpstage.SchemaFailureLosesItsCode | src/nodes/LmChatUpstage/LmChatUpstage.node.ts:300-302 | the node's schema failure has `validateJsonSchema`'s message but is recorded as `'unknown_error'` where the validator's error is recorded as `invalid_json_schema` |
| LmChatUpstage.SentByBelongsToItems | src/nodes/LmChatUpstage/LmChatUpstage.node.ts:261-320 | every request sent belongs to an earlier item and is that item's request, at most one per item, in item order |
| LmChatUpstage.SentByIncludesEveryRequest | src/nodes/LmChatUpstage/LmChatUpstage.node.ts:261-320 | every processed item whose processing sends a request appears among the requests sent |
| LmChatUpstage.FailureRecord | src/nodes/LmChatUpstage/LmChatUpstage.node.ts:347-364 | a failure under continue-on-fail is recorded with its message and its own `code` when truthy, else `'unknown_error'` |
| LmChatUpstage.AbortError | src/nodes/LmChatUpstage/LmChatUpstage.node.ts:347-366 | the aborting error is a plain `Error` without a code whose message is "Upstage Solar LLM failed for item i: " followed by the failure's message, or "Unknown error" for a non-Error |
| LmChatUpstage.RunItems | src/nodes/LmChatUpstage/LmChatUpstage.node.ts:261-369 | with continue-on-fail one record per item in order, paired with its index, failures as records; without it the run succeeds exactly when every item does, and otherwise aborts at the first failing item with "Upstage Solar LLM failed for item i: …" after sending only the requests of items up to it |
| LmChatUpstage.Execute | src/nodes/LmChatUpstage/LmChatUpstage.node.ts:257-372 | the same run properties stated over the node's processing of each input item |
| ErrorHandler.NewUpstageApiError | src/utils/errorHandler.ts:5-15 | the error is an `UpstageApiError` and an `Error`, with the given message, code, status code and context and the name `UpstageApiError` |
| ErrorHandler.HandleApiError | src/utils/errorHandler.ts:17-37 | always throws an `UpstageApiError`: the input itself if it is one; for an API-shaped input the context-prefixed message, the code unless falsy (else `api_request_failed`) and the status code; otherwise the fixed unknown-error message without status code; the context label is set |
| ErrorHandler.HandleApiErrorIdempotent | src/utils/errorHandler.ts:18-20 | normalising a normalised error changes nothing, whatever the second context |
| ErrorHandler.NormalisedCodeIsTruthy | src/utils/errorHandler.ts:22-36 | a freshly normalised error always has a truthy code and is API-shaped |
| ErrorHandler.StatusWithoutCodeIsLost | src/utils/errorHandler.ts:31-36 | an object with a message and status code but no `code` key loses both |
| ErrorHandler.ValidateRequiredField | src/utils/errorHandler.ts:64-73 | fails exactly for undefined, null and `''`, with "<field> is required" and `missing_required_field` |
| ErrorHandler.ValidateMessageRole | src/utils/errorHandler.ts:75-85 | fails exactly for a role other than the three, listing them in its message, with `invalid_message_role` |
| ErrorHandler.ValidateJsonSchema | src/utils/errorHandler.ts:87-98 | returns the parsed value exactly when the text parses, otherwise fails with `invalid_json_schema` |
| ErrorHandler.ValidateModelSupport | src/utils/errorHandler.ts:100-109 | fails exactly when the model is not in the list, with `model_not_supported` |
| ErrorHandler.CreateErrorResponse | src/utils/errorHandler.ts:111-125 | the error's message (or "Unknown error" for a non-Error), the code of an API-shaped error unless falsy (else `api_request_failed`), the context echoed |
| ErrorHandler.ErrorResponseAgreesWithNormalised | src/utils/errorHandler.ts:111-125 | the response for a freshly normalised error (one that was not already an `UpstageApiError`) carries exactly its message, code and context |
| ErrorHandler.PassedThroughErrorResponse | src/utils/errorHandler.ts:111-125 | an `UpstageApiError` passed through normalisation gets the response of the error itself: its message, `api_request_failed` for a falsy code, and the caller's context rather than its own |
| Types.IsApiError | src/types/index.ts:164-171 | holds exactly for an object where `code` and `message` are present (own or inherited), whatever their values; never for null or a non-object |
| Types.IsErrorWithStatusCode | src/types/index.ts:173-179 | holds exactly for an object with a `statusCode` key; never for null or a non-object |
| HttpProxyAgent.FirstDefined | src/utils/httpProxyAgent.ts:10-14 | nothing exactly when no variable is set; otherwise the value of the first set variable, even when empty |
| HttpProxyAgent.GetHttpProxyAgent | src/utils/httpProxyAgent.ts:3-22 | an agent only for a non-empty selected address, none without an environment |
| HttpProxyAgent.HttpsProxyWins | src/utils/httpProxyAgent.ts:10-11 | a set `HTTPS_PROXY` is selected whatever the other variables hold |
| HttpProxyAgent.LaterVariablesInOrder | src/utils/httpProxyAgent.ts:11-21 | without `HTTPS_PROXY` the first set variable among `https_proxy`, `HTTP_PROXY`, `http_proxy` is chosen; with none set there is no agent |
| HttpProxyAgent.EmptyHttpsProxyDisablesProxy | src/utils/httpProxyAgent.ts:10-21 | an empty but set `HTTPS_PROXY` yields no agent |
| HttpProxyAgent.OnlyLowerHttpProxy | src/utils/httpProxyAgent.ts:14-21 | with only `http_proxy` set, its non-empty address is used |
| ApiClient.BuildRequest | src/utils/apiClient.ts:21-42 | method, URL and timeout default to POST, the endpoint and the client's timeout unless overridden; per-call headers win over the default content type and bearer token, which otherwise stay; the agent is the selected proxy |
| ApiClient.MakeRequest | src/utils/apiClient.ts:44-50 | a successful transport response is returned; a failure is thrown as the normalised `UpstageApiError` for the call's context |
| ApiClient.EndpointRequestShape | src/utils/apiClient.ts:53-117 | every endpoint request goes to its fixed URL with the client's timeout and the default headers; the model listing is the only GET and the only one without a body |
| ApiClient.FailedCallCarriesContext | src/utils/apiClient.ts:44-50 | a failed endpoint call throws an `UpstageApiError` labelled with the call's context unless the transport threw one already |
| ApiClient.Invoke | src/utils/apiClient.ts:53-117 | an endpoint method returns exactly what the transport returns for its request, and a failure is always thrown as an `UpstageApiError` |
| ApiClient.CallEndpoint | src/utils/apiClient.ts:53-117 | a success passes through; a transport failure is labelled with the caller's context, or with the method's default label when the caller gives none, unless the transport threw an `UpstageApiError` |
| ApiClient.DefaultContextLabelsFailure | src/utils/apiClient.ts:55-117 | a call made without a context fails with its method's default label as context and as the message prefix; `getModels()` uses "GetModels" |
| ApiClient.SetTimeout | src/utils/apiClient.ts:120-122 | only the timeout changes |
| ApiClient.SetTimeoutGovernsLaterRequests | src/utils/apiClient.ts:120-122 | every later request carries the new timeout and is otherwise unchanged |
| ApiClient.SetBaseUrl | src/utils/apiClient.ts:124-126 | only the base URL changes |
| ApiClient.GetBaseUrl | src/utils/apiClient.ts:128-130 | returns the client's current base URL |
| ApiClient.BaseUrlIsInert | src/utils/apiClient.ts:124-130 | the base URL reads back as last set and never affects a request |
| ApiClient.StreamChatCompletions | src/utils/apiClient.ts:133-140 | always throws "Streaming not yet implemented" |
| ApiClient.CreateUpstageApiClient | src/utils/apiClient.ts:144-158 | a missing base URL or timeout takes the default `https://api.upstage.ai` or 30000 |

## Left out

- ApiClient.MakeRequest: assumes that building the proxy agent never throws. `getHttpProxyAgent` runs before the `try` (src/utils/apiClient.ts:39, 44), and `new HttpsProxyAgent` (src/utils/httpProxyAgent.ts:21) is outside its own `try`, so an address the agent library rejects would escape un-normalised; the agent is modelled as the selected address only.
- Logging: `console.error` in the node and `logError` (including that it swallows its own failures) have no effect on results.
- Timestamps: the `timestamp` field of failure records and of `createErrorResponse` comes from the clock and is omitted.
- The node's description block (UI metadata; its numeric bounds are not enforced by any code).
- The `HttpsProxyAgent` object: a foreign library; an agent is represented by the proxy address it would be built with.
- The `try`/`catch` around environment access in `getHttpProxyAgent`: reading a map cannot fail; an unavailable `process.env` is the `None` environment.
- The HTTP helpers, authentication and `JSON.parse` are function parameters; the node's helper is indexed by item so that each item may see a different response.
- `async`/`await`: calls are sequential.
- The `stack` of errors, and `Error.prototype.toString` beyond name and message.
- `VALIDATION_RULES`, the default tuning values and the error codes no code uses (`invalid_field_type`, `empty_array`, `empty_string`, `value_out_of_range`).
- src/utils/tracing.ts and src/utils/helpers.ts: wrappers around modules that are not part of this model.
- Key order of objects: objects are maps, so the order of keys in the sent JSON is not modelled.
- Numbers are reals, so NaN and ±Infinity are not representable (and NaN's falsiness, which matters in `error.code || …`, is not modelled). Template-literal conversion renders integral numbers of magnitude below 10^21 exactly; fractional numbers and integers of magnitude 10^21 or more render as a placeholder text where JavaScript would print a decimal or exponent form.
- Option values are typed as declared (numbers, booleans, text); values of other types arriving in the options collection are not modelled.
- The message list's content and role are text or absent; non-text values are not modelled.
- Timeouts are whole numbers (milliseconds).
- `logError`'s own computation of an error code is not modelled, since it only feeds the log.
- Property reads on strings (such as `length`) and numeric keys read by name on arrays: the code reads only named properties (`choices`, `message`, `content`, `usage`, `model`, `created`, `code`, `statusCode`) that strings and arrays do not have.

=== FILE: apiclient.dfy ===
/** The request construction of src/utils/apiClient.ts. The client's mutable `timeout`
    and `baseUrl` fields become an immutable value whose setters return the updated
    client; the HTTP helper is a `Transport` parameter and the process environment is
    passed in for proxy selection. */
module ApiClient {
  import opened Results
  import opened JsValues
  import opened Constants
  import opened Types
  import opened ErrorHandler
  import opened HttpProxyAgent

  /** An `UpstageApiClient`: its API key and its two configurable fields. */
  datatype UpstageApiClient = UpstageApiClient(apiKey: string, baseUrl: string, timeout: int)

  /** The per-call `Partial<IHttpRequestOptions>`; an absent key is `None` and
      `httpMethod` stands for the `method` key. */
  datatype RequestOverrides = RequestOverrides(
    httpMethod: Option<string>,
    url: Option<string>,
    timeout: Option<int>,
    body: Option<JsValue>,
    json: Option<bool>,
    headers: Option<map<string, string>>
  )

  /** The options handed to the HTTP helper (`httpMethod` is its `method`). `httpAgent` is the proxy address of the agent
      attached to the request, if any. */
  datatype HttpRequestOptions = HttpRequestOptions(
    httpMethod: string,
    url: string,
    timeout: int,
    body: Option<JsValue>,
    json: Option<bool>,
    headers: map<string, string>,
    httpAgent: Option<string>
  )

  /** `helpers.httpRequest`: the decoded response, or the value it throws. */
  type Transport = HttpRequestOptions -> Result<JsValue, JsValue>

  /** The headers every request starts with. */
  function DefaultHeaders(apiKey: string): map<string, string> {
    map["Content-Type" := "application/json", "Authorization" := "Bearer " + apiKey]
  }

  /** The options `makeRequest` builds: POST to the endpoint with the client's timeout,
      each overridden by a per-call option that is present; the default headers, each
      overridden by a per-call header of the same name; and the proxy agent, if any. */
  function BuildRequest(
    client: UpstageApiClient, endpoint: string, overrides: RequestOverrides, processEnv: Option<map<string, string>>
  ): (req: HttpRequestOptions)
    ensures req.httpMethod == (if overrides.httpMethod.Some? then overrides.httpMethod.value else "POST")
    ensures req.url == (if overrides.url.Some? then overrides.url.value else endpoint)
    ensures req.timeout == (if overrides.timeout.Some? then overrides.timeout.value else client.timeout)
    ensures req.body == overrides.body && req.json == overrides.json
    ensures overrides.headers.Some? ==>
      forall h :: (h in overrides.headers.value ==> h in req.headers && req.headers[h] == overrides.headers.value[h])
    ensures forall h :: (h in DefaultHeaders(client.apiKey) && (overrides.headers.None? || h !in overrides.headers.value)
      ==> h in req.headers && req.headers[h] == DefaultHeaders(client.apiKey)[h])
    ensures req.headers.Keys == DefaultHeaders(client.apiKey).Keys + (if overrides.headers.Some? then overrides.headers.value.Keys else {})
    ensures req.httpAgent == GetHttpProxyAgent(processEnv)
  {
    HttpRequestOptions(
      httpMethod := overrides.httpMethod.GetOr("POST"),
      url := overrides.url.GetOr(endpoint),
      timeout := overrides.timeout.GetOr(client.timeout),
      body := overrides.body,
      json := overrides.json,
      headers := DefaultHeaders(client.apiKey) + overrides.headers.GetOr(map[]),
      httpAgent := GetHttpProxyAgent(processEnv))
  }

  /** `makeRequest`: the response on success; on any transport failure the normalised
      error for this call's context label is thrown instead of a value. */
  function MakeRequest(
    client: UpstageApiClient, endpoint: string, overrides: RequestOverrides, context: string,
    processEnv: Option<map<string, string>>, send: Transport
  ): (r: Result<JsValue, JsValue>)
    ensures send(BuildRequest(client, endpoint, overrides, processEnv)).Ok? ==>
      r == send(BuildRequest(client, endpoint, overrides, processEnv))
    ensures send(BuildRequest(client, endpoint, overrides, processEnv)).Err? ==>
      r.Err? && IsUpstageApiError(r.error)
      && r.error == HandleApiError(send(BuildRequest(client, endpoint, overrides, processEnv)).error, context)
  {
    match send(BuildRequest(client, endpoint, overrides, processEnv))
    case Ok(response) => Ok(response)
    case Err(error) => Err(HandleApiError(error, context))
  }

  /** The five endpoint methods of the client, with the body each one sends. */
  datatype ApiCall =
    | ChatCompletions(chatBody: ChatRequestBody)
    | Embeddings(body: JsValue)
    | GetModels
    | DocumentParsing(body: JsValue)
    | InformationExtraction(body: JsValue)

  /** The fixed absolute URL each endpoint method targets. */
  function Endpoint(call: ApiCall): string {
    match call
    case ChatCompletions(_) => ChatCompletionsUrl
    case Embeddings(_) => EmbeddingsUrl
    case GetModels => ModelsUrl
    case DocumentParsing(_) => DocumentParsingUrl
    case InformationExtraction(_) => InformationExtractionUrl
  }

  /** The context label each endpoint method uses when its caller gives none. */
  function DefaultContext(call: ApiCall): string {
    match call
    case ChatCompletions(_) => "ChatCompletions"
    case Embeddings(_) => "Embeddings"
    case GetModels => "GetModels"
    case DocumentParsing(_) => "DocumentParsing"
    case InformationExtraction(_) => "InformationExtraction"
  }

  /** The per-call options each endpoint method passes: a JSON body, or `method: 'GET'`
      for the model listing. */
  function Overrides(call: ApiCall): RequestOverrides {
    match call
    case ChatCompletions(b) => RequestOverrides(None, None, None, Some(b.AsObject().ToJs()), Some(true), None)
    case Embeddings(b) => RequestOverrides(None, None, None, Some(b), Some(true), None)
    case GetModels => RequestOverrides(Some("GET"), None, None, None, None, None)
    case DocumentParsing(b) => RequestOverrides(None, None, None, Some(b), Some(true), None)
    case InformationExtraction(b) => RequestOverrides(None, None, None, Some(b), Some(true), None)
  }

  /** The request an endpoint method sends. */
  function RequestFor(client: UpstageApiClient, call: ApiCall, processEnv: Option<map<string, string>>): HttpRequestOptions {
    BuildRequest(client, Endpoint(call), Overrides(call), processEnv)
  }

  /** Calling an endpoint method with the given context label: the transport's response,
      or an `UpstageApiError` thrown in its place. */
  function Invoke(
    client: UpstageApiClient, call: ApiCall, context: string, processEnv: Option<map<string, string>>, send: Transport
  ): (r: Result<JsValue, JsValue>)
    ensures r.Ok? <==> send(RequestFor(client, call, processEnv)).Ok?
    ensures r.Ok? ==> r.value == send(RequestFor(client, call, processEnv)).value
    ensures r.Err? ==> IsUpstageApiError(r.error)
  {
    MakeRequest(client, Endpoint(call), Overrides(call), context, processEnv, send)
  }

  /** An endpoint method called with its optional context argument: an absent argument
      takes the method's default label, which then labels a failure. */
  function CallEndpoint(
    client: UpstageApiClient, call: ApiCall, context: Option<string>, processEnv: Option<map<string, string>>, send: Transport
  ): (r: Result<JsValue, JsValue>)
    ensures send(RequestFor(client, call, processEnv)).Ok? ==> r == send(RequestFor(client, call, processEnv))
    ensures send(RequestFor(client, call, processEnv)).Err? && !IsUpstageApiError(send(RequestFor(client, call, processEnv)).error)
      ==> r.Err? && Get(r.error, "context") == Str(if context.Some? then context.value else DefaultContext(call))
  {
    Invoke(client, call, context.GetOr(DefaultContext(call)), processEnv, send)
  }

  /** A failed call made without a context is labelled with its method's name, and its
      message starts with that label; `getModels()` is labelled "GetModels". */
  lemma DefaultContextLabelsFailure(
    client: UpstageApiClient, call: ApiCall, processEnv: Option<map<string, string>>, send: Transport
  )
    requires send(RequestFor(client, call, processEnv)).Err?
    requires !IsUpstageApiError(send(RequestFor(client, call, processEnv)).error)
    ensures var r := CallEndpoint(client, call, None, processEnv, send);
      && r.Err? && Get(r.error, "context") == Str(DefaultContext(call))
      && Get(r.error, "message").Str?
      && DefaultContext(call) + ": " <= Get(r.error, "message").s
    ensures call.GetModels? ==> Get(CallEndpoint(client, call, None, processEnv, send).error, "context") == Str("GetModels")
  {
  }

  /** Every endpoint request goes to its fixed URL with the client's current timeout, the
      JSON content type and the bearer token; the model listing is the only GET, and only
      it has no body. */
  lemma EndpointRequestShape(client: UpstageApiClient, call: ApiCall, processEnv: Option<map<string, string>>)
    ensures var req := RequestFor(client, call, processEnv);
      && req.url == Endpoint(call)
      && req.timeout == client.timeout
      && req.httpMethod == (if call.GetModels? then "GET" else "POST")
      && (req.body.Some? <==> !call.GetModels?)
      && req.headers == map["Content-Type" := "application/json", "Authorization" := "Bearer " + client.apiKey]
  {
  }

  /** A failed endpoint call never yields a value: it throws an `UpstageApiError`, and the
      label is the call's own context unless the transport itself threw one. */
  lemma FailedCallCarriesContext(
    client: UpstageApiClient, call: ApiCall, context: string, processEnv: Option<map<string, string>>, send: Transport
  )
    requires send(RequestFor(client, call, processEnv)).Err?
    ensures var r := Invoke(client, call, context, processEnv, send);
      && r.Err? && IsUpstageApiError(r.error)
      && (!IsUpstageApiError(send(RequestFor(client, call, processEnv)).error) ==> Get(r.error, "context") == Str(context))
  {
  }

  /** `setTimeout`: only the timeout changes. */
  function SetTimeout(client: UpstageApiClient, timeout: int): (c: UpstageApiClient)
    ensures c.timeout == timeout && c.apiKey == client.apiKey && c.baseUrl == client.baseUrl
  {
    client.(timeout := timeout)
  }

  /** `setBaseUrl`: only the base URL changes. */
  function SetBaseUrl(client: UpstageApiClient, baseUrl: string): (c: UpstageApiClient)
    ensures c.baseUrl == baseUrl && c.apiKey == client.apiKey && c.timeout == client.timeout
  {
    client.(baseUrl := baseUrl)
  }

  /** `getBaseUrl`: the base URL held by the client, as last set or as created. */
  function GetBaseUrl(client: UpstageApiClient): (url: string)
    ensures url == client.baseUrl
  {
    client.baseUrl
  }

  /** A new timeout is what every later request uses. */
  lemma SetTimeoutGovernsLaterRequests(
    client: UpstageApiClient, timeout: int, call: ApiCall, processEnv: Option<map<string, string>>
  )
    ensures RequestFor(SetTimeout(client, timeout), call, processEnv).timeout == timeout
    ensures RequestFor(SetTimeout(client, timeout), call, processEnv)
         == RequestFor(client, call, processEnv).(timeout := timeout)
  {
  }

  /** The base URL reads back as last set, and it never affects a request. */
  lemma BaseUrlIsInert(client: UpstageApiClient, baseUrl: string, call: ApiCall, processEnv: Option<map<string, string>>)
    ensures GetBaseUrl(SetBaseUrl(client, baseUrl)) == baseUrl
    ensures RequestFor(SetBaseUrl(client, baseUrl), call, processEnv) == RequestFor(client, call, processEnv)
  {
  }

  /** `streamChatCompletions`: always throws, whatever it is given. */
  function StreamChatCompletions(client: UpstageApiClient, body: ChatRequestBody, context: string): (r: Outcome<JsValue>)
    ensures r == Fail(NewError("Streaming not yet implemented"))
  {
    Fail(NewError("Streaming not yet implemented"))
  }

  /** The optional settings of `createUpstageApiClient`. */
  datatype ClientOptions = ClientOptions(baseUrl: Option<string>, timeout: Option<int>)

  /** `createUpstageApiClient`: a missing setting takes the constructor's default. */
  function CreateUpstageApiClient(apiKey: string, options: Option<ClientOptions>): (c: UpstageApiClient)
    ensures c.apiKey == apiKey
    ensures c.baseUrl == (if options.Some? && options.value.baseUrl.Some? then options.value.baseUrl.value else DefaultBaseUrl)
    ensures c.timeout == (if options.Some? && options.value.timeout.Some? then options.value.timeout.value else DefaultRequestTimeout)
  {
    match options
    case None => UpstageApiClient(apiKey, DefaultBaseUrl, DefaultRequestTimeout)
    case Some(o) => UpstageApiClient(apiKey, o.baseUrl.GetOr(DefaultBaseUrl), o.timeout.GetOr(DefaultRequestTimeout))
  }
}

=== FILE: constants.dfy ===
/** The fixed strings and numbers of src/constants/index.ts that the core uses. */
module Constants {

  const ChatCompletionsUrl: string := "https://api.upstage.ai/v1/chat/completions"
  const EmbeddingsUrl: string := "https://api.upstage.ai/v1/embeddings"
  const ModelsUrl: string := "https://api.upstage.ai/v1/models"
  const DocumentParsingUrl: string := "https://api.upstage.ai/v1/parse"
  const InformationExtractionUrl: string := "https://api.upstage.ai/v1/extract"

  const SupportedModels: seq<string> := ["solar-mini", "solar-pro", "solar-pro2"]
  const SupportedEmbeddingModels: seq<string> := ["embedding-query", "embedding-passage"]

  const ResponseFormatText: string := "text"
  const ResponseFormatJsonObject: string := "json_object"
  const ResponseFormatJsonSchema: string := "json_schema"

  /** The three message roles, in the order the error message lists them. */
  const MessageRoles: seq<string> := ["system", "user", "assistant"]

  /** Milliseconds a request may take unless the client is configured otherwise. */
  const DefaultRequestTimeout: int := 30000

  /** The base URL an API client starts with (src/utils/apiClient.ts:17). */
  const DefaultBaseUrl: string := "https://api.upstage.ai"

  const MissingRequiredField: string := "missing_required_field"
  const InvalidMessageRole: string := "invalid_message_role"
  const InvalidJsonSchema: string := "invalid_json_schema"
  const ApiRequestFailed: string := "api_request_failed"
  const ModelNotSupported: string := "model_not_supported"
}

=== FILE: errorhandler.dfy ===
/** The error taxonomy of src/utils/errorHandler.ts: the `UpstageApiError` class, the
    normaliser `handleApiError`, the four validators and `createErrorResponse`.
    A function that "throws" returns the thrown value. */
module ErrorHandler {
  import opened Results
  import opened JsValues
  import opened Constants
  import opened Types

  /** `v instanceof UpstageApiError`. */
  predicate IsUpstageApiError(v: JsValue) {
    v.Obj? && v.cls == UpstageApiErrorObject
  }

  /** `new UpstageApiError(message, code, statusCode, context)`. The class declares its
      three optional fields as constructor parameters, so all of them are own keys of
      the instance even when `undefined`; `name` is set by the constructor. */
  function NewUpstageApiError(message: string, code: JsValue, statusCode: JsValue, context: JsValue): (e: JsValue)
    ensures IsUpstageApiError(e) && IsErrorInstance(e)
    ensures Get(e, "message") == Str(message) && Get(e, "code") == code
    ensures Get(e, "statusCode") == statusCode && Get(e, "context") == context
    ensures Get(e, "name") == Str("UpstageApiError")
  {
    Obj(map[
      "message" := Str(message),
      "name" := Str("UpstageApiError"),
      "code" := code,
      "statusCode" := statusCode,
      "context" := context], UpstageApiErrorObject)
  }

  /** A canonical error: an `UpstageApiError` with the given message, code and context
      label and no status code, the shape every validator throws. */
  predicate IsCanonical(e: JsValue, message: string, code: string, context: string) {
    && IsUpstageApiError(e)
    && Get(e, "message") == Str(message)
    && Get(e, "code") == Str(code)
    && Get(e, "statusCode") == Undefined
    && Get(e, "context") == Str(context)
  }

  /** `handleApiError(error, context)`: it never returns; the result is the value it throws.
      An `UpstageApiError` is rethrown as it is. An API-shaped error (`code` and `message`
      present) is wrapped with its message prefixed by the context label, its code unless
      falsy, and its status code. Anything else loses its message and status code. */
  function HandleApiError(error: JsValue, context: string): (thrown: JsValue)
    ensures IsUpstageApiError(thrown)
    ensures IsUpstageApiError(error) ==> thrown == error
    ensures !IsUpstageApiError(error) ==> Get(thrown, "context") == Str(context)
    ensures !IsUpstageApiError(error) && IsApiError(error) ==>
      && Get(thrown, "message") == Str(context + ": " + ToText(Get(error, "message")))
      && Get(thrown, "code") == (if Truthy(Get(error, "code")) then Get(error, "code") else Str(ApiRequestFailed))
      && Get(thrown, "statusCode") == Get(error, "statusCode")
    ensures !IsUpstageApiError(error) && !IsApiError(error) ==>
      IsCanonical(thrown, context + ": Unknown error occurred", ApiRequestFailed, context)
  {
    if IsUpstageApiError(error) then error
    else if IsApiError(error) then
      NewUpstageApiError(
        context + ": " + ToText(Get(error, "message")),
        if Truthy(Get(error, "code")) then Get(error, "code") else Str(ApiRequestFailed),
        Get(error, "statusCode"),
        Str(context))
    else
      NewUpstageApiError(context + ": Unknown error occurred", Str(ApiRequestFailed), Undefined, Str(context))
  }

  /** Normalising twice is normalising once, whatever the second context label. */
  lemma HandleApiErrorIdempotent(error: JsValue, context: string, context': string)
    ensures HandleApiError(HandleApiError(error, context), context') == HandleApiError(error, context)
  {
  }

  /** A normalised error that was not already an `UpstageApiError` always carries a truthy
      code and the context label, so a later reader never falls back to its own default. */
  lemma NormalisedCodeIsTruthy(error: JsValue, context: string)
    requires !IsUpstageApiError(error)
    ensures Truthy(Get(HandleApiError(error, context), "code"))
    ensures IsApiError(HandleApiError(error, context))
  {
  }

  /** A transport failure that reports a status code but no `code` key is not API-shaped:
      its message and its status code are both lost. */
  lemma StatusWithoutCodeIsLost(message: string, status: Number, context: string)
    ensures var e := Obj(map["message" := Str(message), "statusCode" := Num(status)], PlainObject);
      && Get(HandleApiError(e, context), "statusCode") == Undefined
      && Get(HandleApiError(e, context), "message") == Str(context + ": Unknown error occurred")
  {
  }

  /** `validateRequiredField`: fails exactly for `undefined`, `null` and the empty text,
      so `0` and `false` pass. */
  function ValidateRequiredField(value: JsValue, fieldName: string, context: string): (r: Outcome<JsValue>)
    ensures r.Fail? <==> value == Undefined || value == Null || value == Str("")
    ensures r.Fail? ==> IsCanonical(r.error, fieldName + " is required", MissingRequiredField, context)
  {
    if value == Undefined || value == Null || value == Str("") then
      Fail(NewUpstageApiError(fieldName + " is required", Str(MissingRequiredField), Undefined, Str(context)))
    else Pass
  }

  /** The allowed roles as the role error lists them. */
  lemma AllowedRolesText()
    ensures Join(MessageRoles, ", ") == "system, user, assistant"
  {
    assert MessageRoles[1..][1..] == ["assistant"];
    assert Join(MessageRoles[1..], ", ") == "user, assistant";
  }

  /** The three roles, one by one. */
  lemma AllowedRoles(role: string)
    ensures role in MessageRoles <==> role == "system" || role == "user" || role == "assistant"
  {
  }

  /** `validateMessageRole`: fails exactly when the role is not one of the three roles. */
  function ValidateMessageRole(role: string, context: string): (r: Outcome<JsValue>)
    ensures r.Fail? <==> role != "system" && role != "user" && role != "assistant"
    ensures r.Fail? ==> IsCanonical(r.error,
      "Invalid message role: " + role + ". Must be one of: system, user, assistant", InvalidMessageRole, context)
  {
    AllowedRolesText();
    AllowedRoles(role);
    if role !in MessageRoles then
      var message := "Invalid message role: " + role + ". Must be one of: " + Join(MessageRoles, ", ");
      assert message == "Invalid message role: " + role + ". Must be one of: system, user, assistant";
      Fail(NewUpstageApiError(message, Str(InvalidMessageRole), Undefined, Str(context)))
    else Pass
  }

  /** `validateJsonSchema`: the parsed value when the text parses, else a canonical
      `invalid_json_schema` error. */
  function ValidateJsonSchema(schema: string, context: string, parse: JsonParser): (r: Result<JsValue, JsValue>)
    ensures r.Ok? <==> parse(schema).Some?
    ensures r.Ok? ==> r.value == parse(schema).value
    ensures r.Err? ==> IsCanonical(r.error, "Invalid JSON schema provided", InvalidJsonSchema, context)
  {
    match parse(schema)
    case Some(parsed) => Ok(parsed)
    case None => Err(NewUpstageApiError("Invalid JSON schema provided", Str(InvalidJsonSchema), Undefined, Str(context)))
  }

  /** `validateModelSupport`: fails exactly when the model is not in the supplied list. */
  function ValidateModelSupport(model: string, supportedModels: seq<string>, context: string): (r: Outcome<JsValue>)
    ensures r.Fail? <==> forall i :: 0 <= i < |supportedModels| ==> supportedModels[i] != model
    ensures r.Fail? ==> IsCanonical(r.error,
      "Model '" + model + "' is not supported. Supported models: " + Join(supportedModels, ", "),
      ModelNotSupported, context)
  {
    if model !in supportedModels then
      Fail(NewUpstageApiError(
        "Model '" + model + "' is not supported. Supported models: " + Join(supportedModels, ", "),
        Str(ModelNotSupported), Undefined, Str(context)))
    else Pass
  }

  /** The record `createErrorResponse` returns, without its timestamp. */
  datatype ErrorResponse = ErrorResponse(error: JsValue, error_code: JsValue, context: string)

  /** `createErrorResponse`: an Error's message (or "Unknown error" for a non-Error), the
      code of an API-shaped error unless falsy (else `api_request_failed`), and the
      context label echoed. */
  function CreateErrorResponse(error: JsValue, context: string): (r: ErrorResponse)
    ensures r.context == context
    ensures IsErrorInstance(error) ==> r.error == Get(error, "message")
    ensures !IsErrorInstance(error) ==> r.error == Str("Unknown error")
    ensures IsApiError(error) && Truthy(Get(error, "code")) ==> r.error_code == Get(error, "code")
    ensures !(IsApiError(error) && Truthy(Get(error, "code"))) ==> r.error_code == Str(ApiRequestFailed)
  {
    var message := if IsErrorInstance(error) then Get(error, "message") else Str("Unknown error");
    var code := if IsApiError(error) then (if Truthy(Get(error, "code")) then Get(error, "code") else Str(ApiRequestFailed))
                else Str(ApiRequestFailed);
    ErrorResponse(message, code, context)
  }

  /** Recording a normalised error as a response keeps exactly the fields a thrown error
      carries: its message, its code and its context label. */
  lemma ErrorResponseAgreesWithNormalised(error: JsValue, context: string)
    requires !IsUpstageApiError(error)
    ensures var thrown := HandleApiError(error, context);
      CreateErrorResponse(thrown, context) == ErrorResponse(Get(thrown, "message"), Get(thrown, "code"), context)
  {
  }

  /** An `UpstageApiError` passes through normalisation unchanged, so its response is the
      one for the error itself: a falsy code still becomes `api_request_failed`, and the
      context is the caller's label, not the one the error carries. */
  lemma PassedThroughErrorResponse(error: JsValue, context: string)
    requires IsUpstageApiError(error)
    ensures var r := CreateErrorResponse(HandleApiError(error, context), context);
      && r == CreateErrorResponse(error, context)
      && r.error == Get(error, "message")
      && (!Truthy(Get(error, "code")) ==> r.error_code == Str(ApiRequestFailed))
      && r.context == context
  {
  }
}

=== FILE: httpproxyagent.dfy ===
/** Proxy selection of src/utils/httpProxyAgent.ts. The environment is passed in as a
    map (an unset variable is a missing key); the agent itself is foreign, so it is
    represented by the proxy address it would be built with. */
module HttpProxyAgent {
  import opened Results

  /** The variables consulted, in the order of the `??` chain. */
  const ProxyVariables: seq<string> := ["HTTPS_PROXY", "https_proxy", "HTTP_PROXY", "http_proxy"]

  /** `env[names[0]] ?? env[names[1]] ?? …`: the value of the first name that is set,
      even when that value is empty. */
  function FirstDefined(env: map<string, string>, names: seq<string>): (r: Option<string>)
    ensures r.None? <==> forall i :: 0 <= i < |names| ==> names[i] !in env
    ensures r.Some? ==> exists k :: 0 <= k < |names| && names[k] in env && r.value == env[names[k]]
                                   && forall j :: 0 <= j < k ==> names[j] !in env
  {
    if |names| == 0 then None
    else if names[0] in env then Some(env[names[0]])
    else
      var rest := FirstDefined(env, names[1..]);
      assert forall j :: 1 <= j < |names| ==> names[j] == names[1..][j - 1];
      rest
  }

  /** The proxy address chosen from the environment, before the emptiness test. */
  function SelectProxy(env: map<string, string>): Option<string> {
    FirstDefined(env, ProxyVariables)
  }

  /** `getHttpProxyAgent()`: an agent for the selected address when it is non-empty.
      `processEnv` is `None` where `process` or `process.env` is unavailable. */
  function GetHttpProxyAgent(processEnv: Option<map<string, string>>): (agent: Option<string>)
    ensures agent.Some? ==> agent.value != ""
    ensures processEnv.None? ==> agent.None?
    ensures processEnv.Some? && SelectProxy(processEnv.value).Some? && SelectProxy(processEnv.value).value != ""
            ==> agent == SelectProxy(processEnv.value)
    ensures processEnv.Some? && (SelectProxy(processEnv.value).None? || SelectProxy(processEnv.value).value == "")
            ==> agent.None?
  {
    if processEnv.None? then None
    else
      var selected := SelectProxy(processEnv.value);
      if selected.Some? && selected.value != "" then selected else None
  }

  /** A set `HTTPS_PROXY` decides the outcome whatever the other three variables hold. */
  lemma HttpsProxyWins(env: map<string, string>)
    requires "HTTPS_PROXY" in env
    ensures SelectProxy(env) == Some(env["HTTPS_PROXY"])
  {
  }

  /** Without `HTTPS_PROXY`, the first set variable among `https_proxy`, `HTTP_PROXY` and
      `http_proxy` is chosen; with none of the four set there is no agent. */
  lemma LaterVariablesInOrder(env: map<string, string>)
    requires "HTTPS_PROXY" !in env
    ensures "https_proxy" in env ==> SelectProxy(env) == Some(env["https_proxy"])
    ensures "https_proxy" !in env && "HTTP_PROXY" in env ==> SelectProxy(env) == Some(env["HTTP_PROXY"])
    ensures "https_proxy" !in env && "HTTP_PROXY" !in env && "http_proxy" in env ==> SelectProxy(env) == Some(env["http_proxy"])
    ensures "https_proxy" !in env && "HTTP_PROXY" !in env && "http_proxy" !in env ==> GetHttpProxyAgent(Some(env)).None?
  {
    var names := ProxyVariables;
    assert FirstDefined(env, names) == FirstDefined(env, names[1..]);
    assert names[1..][1..] == names[2..] && names[2..][1..] == names[3..];
    if "https_proxy" !in env {
      assert FirstDefined(env, names[1..]) == FirstDefined(env, names[2..]);
      if "HTTP_PROXY" !in env {
        assert FirstDefined(env, names[2..]) == FirstDefined(env, names[3..]);
      }
    }
  }

  /** An empty but set `HTTPS_PROXY` wins the selection and so yields no agent, even when
      a later variable holds an address. */
  lemma EmptyHttpsProxyDisablesProxy(env: map<string, string>)
    requires "HTTPS_PROXY" in env && env["HTTPS_PROXY"] == ""
    ensures GetHttpProxyAgent(Some(env)).None?
  {
  }

  /** With only `http_proxy` set among the four, its non-empty address is used. */
  lemma OnlyLowerHttpProxy(env: map<string, string>)
    requires "HTTPS_PROXY" !in env && "https_proxy" !in env && "HTTP_PROXY" !in env
    requires "http_proxy" in env && env["http_proxy"] != ""
    ensures GetHttpProxyAgent(Some(env)) == Some(env["http_proxy"])
  {
    LaterVariablesInOrder(env);
  }
}

=== FILE: jsvalues.dfy ===
/** The JavaScript values the adapter handles: thrown errors, HTTP responses and the
    dynamically built request body are all plain JavaScript values, so the model gives
    them one datatype together with the few language operations the source relies on:
    truthiness, the `in` operator, optional property access, template-literal
    conversion to text, `String.prototype.trim` and `new Error(message)`. */
module JsValues {
  import opened Results

  /** A JavaScript number. Only the values flow through the adapter; no arithmetic is done. */
  type Number = real

  /** The constructor an object was made by. It decides `instanceof Error` and which keys
      the object inherits from its prototype chain. */
  datatype ObjClass = PlainObject | ErrorObject | UpstageApiErrorObject

  /** A JavaScript value. `Obj` lists the object's own keys; `Arr` is an array. */
  datatype JsValue =
    | Undefined
    | Null
    | Bool(b: bool)
    | Num(n: Number)
    | Str(s: string)
    | Arr(elems: seq<JsValue>)
    | Obj(props: map<string, JsValue>, cls: ObjClass)

  /** The own keys of a plain object, as built with object literals and spread. */
  type JsObject = map<string, JsValue>

  /** `JSON.parse`: the parsed value, or `None` where it throws a SyntaxError. */
  type JsonParser = string -> Option<JsValue>

  /** `typeof v === 'object' && v !== null`. */
  predicate IsObject(v: JsValue) {
    v.Arr? || v.Obj?
  }

  /** `v instanceof Error`. */
  predicate IsErrorInstance(v: JsValue) {
    v.Obj? && v.cls != PlainObject
  }

  /** JavaScript truthiness (`if (v)`, `v || d`). NaN is not among the modelled numbers. */
  predicate Truthy(v: JsValue) {
    match v
    case Undefined => false
    case Null => false
    case Bool(b) => b
    case Num(n) => n != 0.0
    case Str(s) => s != ""
    case Arr(_) => true
    case Obj(_, _) => true
  }

  /** `key in v` for an object `v`: an own key, or a key every Error inherits
      (`message` and `name` sit on `Error.prototype`). Array index keys are not tracked. */
  predicate Has(v: JsValue, key: string) {
    match v
    case Obj(props, cls) => key in props || (cls != PlainObject && (key == "message" || key == "name"))
    case Arr(_) => key == "length"
    case _ => false
  }

  /** `v?.[key]`: an own key's value, else the inherited value, else `undefined`;
      nullish and primitive values yield `undefined`. */
  function Get(v: JsValue, key: string): (r: JsValue)
    ensures v.Obj? && key in v.props ==> r == v.props[key]
    ensures !Has(v, key) ==> r == Undefined
  {
    match v
    case Obj(props, cls) =>
      if key in props then props[key]
      else if cls != PlainObject && key == "message" then Str("")
      else if cls != PlainObject && key == "name" then Str("Error")
      else Undefined
    case Arr(elems) => if key == "length" then Num(|elems| as real) else Undefined
    case _ => Undefined
  }

  /** `v?.[0]`. */
  function FirstElement(v: JsValue): JsValue {
    match v
    case Arr(elems) => if |elems| > 0 then elems[0] else Undefined
    case Obj(_, _) => Get(v, "0")
    case Str(s) => if |s| > 0 then Str(s[..1]) else Undefined
    case _ => Undefined
  }

  /** `new Error(message)`. */
  function NewError(message: string): JsValue {
    Obj(map["message" := Str(message)], ErrorObject)
  }

  /** `new TypeError(message)`, as raised by the engine on a property read of `null`. */
  function NewTypeError(message: string): JsValue {
    Obj(map["message" := Str(message), "name" := Str("TypeError")], ErrorObject)
  }

  /** The decimal text of a natural number. */
  function NatText(n: nat): string {
    var digit := ['0' + (n % 10) as char];
    if n < 10 then digit else NatText(n / 10) + digit
  }

  /** The decimal text of an integer, with a leading `-` when negative. */
  function IntText(i: int): string {
    if i < 0 then "-" + NatText(-i) else NatText(i)
  }

  /** The text of a number; only integral values of magnitude below 10^21 (which
      JavaScript writes without an exponent) are rendered exactly. */
  function NumberText(n: Number): string {
    if n == n.Floor as real && -1000000000000000000000.0 < n < 1000000000000000000000.0 then IntText(n.Floor)
    else "[number]"
  }

  /** `parts.join(sep)`. */
  function Join(parts: seq<string>, sep: string): string {
    if |parts| == 0 then ""
    else if |parts| == 1 then parts[0]
    else parts[0] + sep + Join(parts[1..], sep)
  }

  /** Template-literal conversion `${v}`. Arrays join their elements with commas
      (nullish elements as empty text), errors use `Error.prototype.toString`. */
  function ToText(v: JsValue): string {
    match v
    case Undefined => "undefined"
    case Null => "null"
    case Bool(b) => if b then "true" else "false"
    case Num(n) => NumberText(n)
    case Str(s) => s
    case Arr(elems) => ElementsText(elems)
    case Obj(props, cls) =>
      if cls == PlainObject then "[object Object]"
      else
        var name := if "name" in props then (if props["name"].Undefined? then "Error" else ToText(props["name"])) else "Error";
        var msg := if "message" in props then (if props["message"].Undefined? then "" else ToText(props["message"])) else "";
        if name == "" then msg else if msg == "" then name else name + ": " + msg
  }

  /** The text of an array's elements, comma separated. */
  function ElementsText(elems: seq<JsValue>): string
    decreases elems
  {
    if |elems| == 0 then ""
    else
      var first := if elems[0].Undefined? || elems[0].Null? then "" else ToText(elems[0]);
      if |elems| == 1 then first else first + "," + ElementsText(elems[1..])
  }

  /** The characters `String.prototype.trim` removes: ECMAScript WhiteSpace and LineTerminator. */
  predicate IsJsWhitespace(c: char) {
    || c == '\U{0009}' || c == '\U{000A}' || c == '\U{000B}' || c == '\U{000C}' || c == '\U{000D}'
    || c == '\U{0020}' || c == '\U{00A0}' || c == '\U{1680}'
    || ('\U{2000}' <= c <= '\U{200A}')
    || c == '\U{2028}' || c == '\U{2029}' || c == '\U{202F}' || c == '\U{205F}'
    || c == '\U{3000}' || c == '\U{FEFF}'
  }

  /** Every character of `s` is whitespace (the empty text included). */
  predicate IsBlank(s: string) {
    forall i :: 0 <= i < |s| ==> IsJsWhitespace(s[i])
  }

  /** Removes leading whitespace: `s` is a blank prefix followed by the result. */
  function TrimStart(s: string): (r: string)
    ensures |r| <= |s| && r == s[|s| - |r|..]
    ensures IsBlank(s[..|s| - |r|])
    ensures r != "" ==> !IsJsWhitespace(r[0])
  {
    if |s| > 0 && IsJsWhitespace(s[0]) then
      var r := TrimStart(s[1..]);
      assert s[..|s| - |r|] == [s[0]] + s[1..][..|s| - 1 - |r|];
      r
    else s
  }

  /** Removes trailing whitespace: `s` is the result followed by a blank suffix. */
  function TrimEnd(s: string): (r: string)
    ensures |r| <= |s| && r == s[..|r|]
    ensures IsBlank(s[|r|..])
    ensures r != "" ==> !IsJsWhitespace(r[|r| - 1])
  {
    if |s| > 0 && IsJsWhitespace(s[|s| - 1]) then
      var r := TrimEnd(s[..|s| - 1]);
      assert s[|r|..] == s[..|s| - 1][|r|..] + [s[|s| - 1]];
      r
    else s
  }

  /** `s.trim()`; the result is empty exactly when `s` is blank. */
  function Trim(s: string): (r: string)
    ensures r == "" <==> IsBlank(s)
  {
    var t := TrimStart(s);
    assert t != "" ==> !IsBlank(t);
    assert IsBlank(s) ==> IsBlank(t);
    TrimEnd(t)
  }
}

=== FILE: lmchatupstage.dfy ===
/** The `execute` method of the Upstage Solar chat node
    (src/nodes/LmChatUpstage/LmChatUpstage.node.ts): for each input item it validates the
    messages, builds the request body, sends one authenticated POST and maps the response;
    a failure either becomes that item's output record or aborts the run.
    The authenticated HTTP helper is a `NodeTransport` parameter and `JSON.parse` a
    `JsonParser` parameter. */
module LmChatUpstage {
  import opened Results
  import opened JsValues
  import opened Constants
  import opened Types
  import opened ErrorHandler

  const MissingMessagesText: string := "At least one message is required for chat completion"
  const EmptyContentText: string := "All messages must have non-empty content"
  const InvalidSchemaText: string := "Invalid JSON schema provided"
  const UnknownErrorCode: string := "unknown_error"

  /** The text of the error for a message whose role is not allowed; an absent role
      reads as "undefined". */
  function InvalidRoleText(role: Option<string>): string {
    "Invalid message role: " + (if role.Some? then role.value else "undefined")
    + ". Must be 'system', 'user', or 'assistant'"
  }

  /** `!content || content.trim() === ''`. */
  predicate ContentIsEmpty(content: Option<string>) {
    content.None? || content.value == "" || Trim(content.value) == ""
  }

  /** The error text a single message raises, if any: content is checked before role. */
  function MessageProblem(m: ChatMessage): (r: Option<string>)
    ensures r.None? <==> m.content.Some? && !IsBlank(m.content.value) && m.role.Some? && m.role.value in MessageRoles
    ensures (m.content.None? || IsBlank(m.content.value)) ==> r == Some(EmptyContentText)
    ensures m.content.Some? && !IsBlank(m.content.value) && !(m.role.Some? && m.role.value in MessageRoles)
            ==> r == Some(InvalidRoleText(m.role))
  {
    if ContentIsEmpty(m.content) then Some(EmptyContentText)
    else if !(m.role.Some? && m.role.value in MessageRoles) then Some(InvalidRoleText(m.role))
    else None
  }

  /** The first present entry, in order. */
  function FirstSome<T>(ps: seq<Option<T>>): (r: Option<T>)
    ensures r.None? <==> forall i :: 0 <= i < |ps| ==> ps[i].None?
    ensures r.Some? ==> exists k :: 0 <= k < |ps| && ps[k] == r && forall j :: 0 <= j < k ==> ps[j].None?
  {
    if |ps| == 0 then None
    else if ps[0].Some? then ps[0]
    else
      var rest := FirstSome(ps[1..]);
      assert ps == [ps[0]] + ps[1..];
      rest
  }

  /** The error text of the first message, in order, that raises one. */
  function FirstProblem(ms: seq<ChatMessage>): (r: Option<string>)
    ensures r.None? <==> forall i :: 0 <= i < |ms| ==> MessageProblem(ms[i]).None?
    ensures r.Some? ==> exists k :: 0 <= k < |ms| && MessageProblem(ms[k]) == r
                                   && forall j :: 0 <= j < k ==> MessageProblem(ms[j]).None?
  {
    var problems := seq(|ms|, i requires 0 <= i < |ms| => MessageProblem(ms[i]));
    assert forall i :: 0 <= i < |ms| ==> problems[i] == MessageProblem(ms[i]);
    FirstSome(problems)
  }

  /** The validation at the top of each item: a missing or empty list fails first, then
      each message in order. Every failure is a plain `Error`. */
  function ValidateMessages(messages: Option<seq<ChatMessage>>): (r: Result<seq<ChatMessage>, JsValue>)
    ensures (messages.None? || |messages.value| == 0) ==> r == Err(NewError(MissingMessagesText))
    ensures r.Ok? <==> messages.Some? && |messages.value| > 0
                       && forall i :: 0 <= i < |messages.value| ==> MessageProblem(messages.value[i]).None?
    ensures r.Ok? ==> r.value == messages.value
    ensures r.Err? && messages.Some? && |messages.value| > 0 ==>
      exists k :: 0 <= k < |messages.value| && MessageProblem(messages.value[k]).Some?
                  && r.error == NewError(MessageProblem(messages.value[k]).value)
                  && forall j :: 0 <= j < k ==> MessageProblem(messages.value[j]).None?
  {
    if messages.None? || |messages.value| == 0 then Err(NewError(MissingMessagesText))
    else
      match FirstProblem(messages.value)
      case Some(text) => Err(NewError(text))
      case None => Ok(messages.value)
  }

  /** `!content || content.trim() === ''` holds exactly of an absent content or one made
      only of whitespace and line terminators. */
  lemma ContentIsEmptyIffBlank(content: Option<string>)
    ensures ContentIsEmpty(content) <==> content.None? || IsBlank(content.value)
  {
    if content.Some? && content.value == "" {
      assert IsBlank(content.value);
    }
  }

  /** Every message of a list that passes validation has the shape its declared type
      promises, and its content has a visible character. */
  lemma ValidMessagesAreWellTyped(messages: Option<seq<ChatMessage>>)
    requires ValidateMessages(messages).Ok?
    ensures forall i :: 0 <= i < |messages.value| ==>
      messages.value[i].WellTyped() && !IsBlank(messages.value[i].content.value)
  {
  }

  /** For a message with visible content, the node's inline role check accepts exactly the
      roles `validateMessageRole` accepts, but its error is a plain `Error` whose text
      differs from the validator's. */
  lemma NodeRoleCheckAgreesWithValidator(m: ChatMessage, context: string)
    requires m.content.Some? && !IsBlank(m.content.value) && m.role.Some?
    ensures MessageProblem(m).None? <==> ValidateMessageRole(m.role.value, context).Pass?
    ensures MessageProblem(m).Some? ==>
      && MessageProblem(m).value == "Invalid message role: " + m.role.value + ". Must be 'system', 'user', or 'assistant'"
      && Get(ValidateMessageRole(m.role.value, context).error, "code") == Str(InvalidMessageRole)
  {
    AllowedRoles(m.role.value);
  }

  /** `{model, messages, ...options}`: every option present is a key of the body. */
  function BaseBody(model: string, messages: seq<ChatMessage>, options: ChatOptions): (body: RequestBodyObject)
    ensures body.model == model && body.messages == messages
    ensures body.temperature == options.temperature && body.max_tokens == options.max_tokens
    ensures body.top_p == options.top_p && body.stream == options.stream
    ensures body.reasoning_effort == options.reasoning_effort
    ensures body.frequency_penalty == options.frequency_penalty && body.presence_penalty == options.presence_penalty
    ensures body.response_format == (if options.response_format.Some? then Some(Str(options.response_format.value)) else None)
    ensures body.json_schema == options.json_schema
  {
    RequestBodyObject(model, messages, options.temperature, options.max_tokens, options.top_p, options.stream,
      options.reasoning_effort, options.frequency_penalty, options.presence_penalty,
      StrOpt(options.response_format), options.json_schema)
  }

  /** The guard `options.response_format && options.response_format !== 'text'`. */
  predicate RewritesFormat(options: ChatOptions) {
    options.response_format.Some? && options.response_format.value != "" && options.response_format.value != ResponseFormatText
  }

  /** The schema text is given and non-empty (`options.json_schema` is truthy). */
  predicate HasSchemaText(options: ChatOptions) {
    options.json_schema.Some? && options.json_schema.value != ""
  }

  /** The two bodies agree on every key except `response_format` and `json_schema`. */
  predicate SameOtherKeys(a: RequestBodyObject, b: RequestBodyObject) {
    a.(response_format := None, json_schema := None) == b.(response_format := None, json_schema := None)
  }

  /** The request body. Options are spread over model and messages; when the format is
      rewritten, `json_object` becomes `{type}`, `json_schema` with schema text becomes
      `{type, json_schema: parsed}` (or fails when the text does not parse), and the raw
      `json_schema` key is deleted. Otherwise the spread is left as it is. */
  function BuildRequestBody(model: string, messages: seq<ChatMessage>, options: ChatOptions, parse: JsonParser)
    : (r: Result<RequestBodyObject, JsValue>)
    ensures r.Err? <==> options.response_format == Some(ResponseFormatJsonSchema) && HasSchemaText(options)
                        && parse(options.json_schema.value).None?
    ensures r.Err? ==> r.error == NewError(InvalidSchemaText)
    ensures r.Ok? ==> SameOtherKeys(r.value, BaseBody(model, messages, options))
    ensures !RewritesFormat(options) ==> r == Ok(BaseBody(model, messages, options))
    ensures r.Ok? && RewritesFormat(options) ==> r.value.json_schema.None?
    ensures r.Ok? ==> r.value.response_format.Some? == options.response_format.Some?
  {
    var base := BaseBody(model, messages, options);
    if !RewritesFormat(options) then Ok(base)
    else if options.response_format.value == ResponseFormatJsonObject then
      Ok(base.(response_format := Some(ResponseFormatObject(ResponseFormatJsonObject, None).ToJs()), json_schema := None))
    else if options.response_format.value == ResponseFormatJsonSchema && HasSchemaText(options) then
      match parse(options.json_schema.value)
      case None => Err(NewError(InvalidSchemaText))
      case Some(schema) =>
        Ok(base.(response_format := Some(ResponseFormatObject(ResponseFormatJsonSchema, Some(schema)).ToJs()),
                 json_schema := None))
    else Ok(base.(json_schema := None))
  }

  /** With `json_object`, the body's format is exactly `{type: 'json_object'}` and there is
      no `json_schema` key, whatever schema text was given. */
  lemma JsonObjectFormat(model: string, messages: seq<ChatMessage>, options: ChatOptions, parse: JsonParser)
    requires options.response_format == Some(ResponseFormatJsonObject)
    ensures var r := BuildRequestBody(model, messages, options, parse);
      && r.Ok?
      && r.value.response_format == Some(Obj(map["type" := Str("json_object")], PlainObject))
      && r.value.json_schema.None?
  {
    var v := ResponseFormatObject(ResponseFormatJsonObject, None).ToJs();
    assert v.props == map["type" := Str("json_object")];
  }

  /** With `json_schema`: parseable schema text gives `{type: 'json_schema', json_schema:
      parsed}`; missing or empty text leaves the raw string `'json_schema'`; either way
      the `json_schema` key is gone. */
  lemma JsonSchemaFormat(model: string, messages: seq<ChatMessage>, options: ChatOptions, parse: JsonParser)
    requires options.response_format == Some(ResponseFormatJsonSchema)
    ensures var r := BuildRequestBody(model, messages, options, parse);
      && (HasSchemaText(options) && parse(options.json_schema.value).Some? ==>
            r.Ok? && r.value.response_format
                     == Some(Obj(map["type" := Str("json_schema"), "json_schema" := parse(options.json_schema.value).value], PlainObject)))
      && (!HasSchemaText(options) ==> r.Ok? && r.value.response_format == Some(Str("json_schema")))
      && (r.Ok? ==> r.value.json_schema.None?)
  {
    if HasSchemaText(options) && parse(options.json_schema.value).Some? {
      var schema := parse(options.json_schema.value).value;
      var v := ResponseFormatObject(ResponseFormatJsonSchema, Some(schema)).ToJs();
      assert v.props == map["type" := Str("json_schema"), "json_schema" := schema];
    }
  }

  /** A `'text'` format leaves the spread untouched: the raw format string and any schema
      text stay in the body, so it is not the object any declared request body denotes. */
  lemma TextFormatKeepsRawFields(model: string, messages: seq<ChatMessage>, options: ChatOptions, parse: JsonParser)
    requires options.response_format == Some(ResponseFormatText)
    ensures var r := BuildRequestBody(model, messages, options, parse);
      && r.Ok?
      && r.value.response_format == Some(Str("text"))
      && r.value.json_schema == options.json_schema
      && forall b: ChatRequestBody :: b.AsObject() != r.value
  {
  }

  /** A format rewritten into an object gives the object of a well-typed declared request
      body when every message is well typed (as validated lists are) and the parsed schema,
      if any, is an object or array. */
  lemma RewrittenBodyIsDeclared(model: string, messages: seq<ChatMessage>, options: ChatOptions, parse: JsonParser)
    requires options.response_format == Some(ResponseFormatJsonObject)
          || (options.response_format == Some(ResponseFormatJsonSchema) && HasSchemaText(options)
              && parse(options.json_schema.value).Some?)
    ensures BuildRequestBody(model, messages, options, parse).Ok?
    ensures (forall i :: 0 <= i < |messages| ==> messages[i].WellTyped())
            && (options.response_format == Some(ResponseFormatJsonObject) || IsObject(parse(options.json_schema.value).value)) ==>
      exists b: ChatRequestBody :: b.WellTyped() && b.AsObject() == BuildRequestBody(model, messages, options, parse).value
  {
    var format := if options.response_format == Some(ResponseFormatJsonObject)
                  then ResponseFormatObject(ResponseFormatJsonObject, None)
                  else ResponseFormatObject(ResponseFormatJsonSchema, parse(options.json_schema.value));
    var b := ChatRequestBody(model, messages, options.temperature, options.max_tokens, options.top_p,
      options.stream, options.reasoning_effort, options.frequency_penalty, options.presence_penalty, Some(format));
    assert b.AsObject() == BuildRequestBody(model, messages, options, parse).value;
  }

  /** Schema text that parses to `null` or a primitive is still sent as `json_schema`, and
      the body is then the object of no well-typed declared request body. */
  lemma PrimitiveSchemaIsUndeclared(model: string, messages: seq<ChatMessage>, options: ChatOptions, parse: JsonParser)
    requires options.response_format == Some(ResponseFormatJsonSchema) && HasSchemaText(options)
    requires parse(options.json_schema.value).Some? && !IsObject(parse(options.json_schema.value).value)
    ensures var r := BuildRequestBody(model, messages, options, parse);
      && r.Ok?
      && r.value.response_format
         == Some(Obj(map["type" := Str("json_schema"), "json_schema" := parse(options.json_schema.value).value], PlainObject))
      && forall b: ChatRequestBody :: b.FormatWellTyped() ==> b.AsObject() != r.value
  {
    JsonSchemaFormat(model, messages, options, parse);
  }

  /** What the node keeps of a response: the raw response when streaming was asked for,
      a content/usage/model/created summary otherwise, or a failure record. */
  datatype OutputJson =
    | RawResponse(response: JsValue)
    | Completion(content: JsValue, usage: JsValue, model: JsValue, created: JsValue, full_response: JsValue)
    | ItemFailure(error: JsValue, error_code: JsValue)

  /** `choice?.message?.content || ''` of the first choice. */
  function FirstChoiceContent(response: JsValue): (c: JsValue)
    ensures Truthy(c) || c == Str("")
  {
    var content := Get(Get(FirstElement(Get(response, "choices")), "message"), "content");
    if Truthy(content) then content else Str("")
  }

  /** The response mapping. A streamed response passes through unchanged. Otherwise the
      response must not be nullish (reading `choices` from it throws) and the summary
      holds the first choice's content or `''`. */
  function MapResponse(stream: Option<bool>, response: JsValue): (r: Result<OutputJson, JsValue>)
    ensures stream == Some(true) ==> r == Ok(RawResponse(response))
    ensures stream != Some(true) && (response.Undefined? || response.Null?) ==>
      r.Err? && IsErrorInstance(r.error) && !Has(r.error, "code")
    ensures stream != Some(true) && !(response.Undefined? || response.Null?) ==>
      r.Ok? && r.value.Completion? && r.value.full_response == response
      && r.value.content == FirstChoiceContent(response)
      && r.value.usage == Get(response, "usage") && r.value.model == Get(response, "model")
      && r.value.created == Get(response, "created")
  {
    if stream == Some(true) then Ok(RawResponse(response))
    else if response.Undefined? || response.Null? then
      Err(NewTypeError("Cannot read properties of " + ToText(response) + " (reading 'choices')"))
    else
      Ok(Completion(FirstChoiceContent(response), Get(response, "usage"), Get(response, "model"),
                    Get(response, "created"), response))
  }

  /** A response of the declared shape maps to its first choice's content (or `''` when
      there is no choice or the content is empty), its usage, model and creation time. */
  lemma MapDeclaredResponse(response: ChatCompletionResponse, stream: Option<bool>)
    requires stream != Some(true)
    ensures MapResponse(stream, response.ToJs()) == Ok(Completion(
      if |response.choices| > 0 && response.choices[0].content != "" then Str(response.choices[0].content) else Str(""),
      response.usage.ToJs(), Str(response.model), Num(response.created), response.ToJs()))
  {
    var v := response.ToJs();
    var choices := Get(v, "choices");
    assert choices.Arr? && |choices.elems| == |response.choices|;
    if |response.choices| > 0 {
      assert choices.elems[0] == response.choices[0].ToJs();
    }
  }

  /** The parameters the node reads for one item. `messages` is `None` where the parameter
      is null. */
  datatype ItemParameters = ItemParameters(model: string, messages: Option<seq<ChatMessage>>, options: ChatOptions)

  /** The request handed to `httpRequestWithAuthentication` with its credential type. */
  datatype NodeRequest = NodeRequest(credentialType: string, httpMethod: string, url: string, body: RequestBodyObject, json: bool)

  /** The authenticated HTTP helper, asked on behalf of an item index: the decoded
      response, or the value it throws. */
  type NodeTransport = (nat, NodeRequest) -> Result<JsValue, JsValue>

  /** The request the node sends for a body. */
  function ChatRequest(body: RequestBodyObject): NodeRequest {
    NodeRequest("upstageApi", "POST", ChatCompletionsUrl, body, true)
  }

  /** What one item produced: its result or thrown value, and the request sent, if any. */
  datatype ItemOutcome = ItemOutcome(result: Result<OutputJson, JsValue>, request: Option<NodeRequest>)

  /** The `try` block for item `index`: validate, build, send, map. An item that sends
      nothing has failed; what it sends is always the authenticated JSON POST to the
      chat-completions endpoint. */
  function ProcessItem(item: ItemParameters, index: nat, send: NodeTransport, parse: JsonParser): (o: ItemOutcome)
    ensures o.request.None? ==> o.result.Err?
    ensures o.request.Some? ==> o.request.value == ChatRequest(o.request.value.body)
  {
    match ValidateMessages(item.messages)
    case Err(e) => ItemOutcome(Err(e), None)
    case Ok(messages) =>
      match BuildRequestBody(item.model, messages, item.options, parse)
      case Err(e) => ItemOutcome(Err(e), None)
      case Ok(body) =>
        var request := ChatRequest(body);
        match send(index, request)
        case Err(e) => ItemOutcome(Err(e), Some(request))
        case Ok(response) => ItemOutcome(MapResponse(item.options.stream, response), Some(request))
  }

  /** The stages of one item: a validation failure is the item's result and nothing is
      sent; a request is sent exactly when validation and body building succeed, and then
      it carries the built body, and the item's result is the transport's failure or the
      mapped response. */
  lemma ProcessItemStages(item: ItemParameters, index: nat, send: NodeTransport, parse: JsonParser)
    ensures var o := ProcessItem(item, index, send, parse);
      && (ValidateMessages(item.messages).Err? ==>
            o == ItemOutcome(Err(ValidateMessages(item.messages).error), None))
      && (o.request.Some? <==>
            ValidateMessages(item.messages).Ok? && BuildRequestBody(item.model, item.messages.value, item.options, parse).Ok?)
      && (ValidateMessages(item.messages).Ok? && BuildRequestBody(item.model, item.messages.value, item.options, parse).Err? ==>
            o.result == Err(NewError(InvalidSchemaText)))
      && (o.request.Some? ==>
            && o.request.value == ChatRequest(BuildRequestBody(item.model, item.messages.value, item.options, parse).value)
            && (send(index, o.request.value).Err? ==> o.result == Err(send(index, o.request.value).error))
            && (send(index, o.request.value).Ok? ==> o.result == MapResponse(item.options.stream, send(index, o.request.value).value)))
  {
  }

  /** `error instanceof Error ? error.message : 'Unknown error'`. */
  function ErrorMessageOf(error: JsValue): JsValue {
    if IsErrorInstance(error) then Get(error, "message") else Str("Unknown error")
  }

  /** The record a failure becomes under continue-on-fail: the message and the error's
      own `code` unless falsy, else `'unknown_error'`. */
  function FailureRecord(error: JsValue): (j: OutputJson)
    ensures j.ItemFailure? && j.error == ErrorMessageOf(error)
    ensures Truthy(Get(error, "code")) ==> j.error_code == Get(error, "code")
    ensures !Truthy(Get(error, "code")) ==> j.error_code == Str(UnknownErrorCode)
  {
    ItemFailure(ErrorMessageOf(error), if Truthy(Get(error, "code")) then Get(error, "code") else Str(UnknownErrorCode))
  }

  /** The error that aborts the run at item `index`. */
  function AbortError(index: nat, error: JsValue): (e: JsValue)
    ensures IsErrorInstance(e) && !Has(e, "code")
    ensures IsErrorInstance(error) && Get(error, "message").Str? ==>
      Get(e, "message") == Str("Upstage Solar LLM failed for item " + NatText(index) + ": " + Get(error, "message").s)
    ensures !IsErrorInstance(error) ==>
      Get(e, "message") == Str("Upstage Solar LLM failed for item " + NatText(index) + ": Unknown error")
  {
    NewError("Upstage Solar LLM failed for item " + NatText(index) + ": " + ToText(ErrorMessageOf(error)))
  }

  /** The output record of an item under continue-on-fail. */
  function RecordOf(result: Result<OutputJson, JsValue>): OutputJson {
    match result
    case Ok(j) => j
    case Err(e) => FailureRecord(e)
  }

  /** Every validation failure is a plain `Error` without a `code`, so it is recorded
      with `'unknown_error'` rather than a specific code, with its text as the message. */
  lemma ValidationFailureIsUnknownError(messages: Option<seq<ChatMessage>>)
    requires ValidateMessages(messages).Err?
    ensures var e := ValidateMessages(messages).error;
      && IsErrorInstance(e) && !Has(e, "code")
      && FailureRecord(e).error_code == Str(UnknownErrorCode)
      && FailureRecord(e).error.Str?
  {
    var e := ValidateMessages(messages).error;
    if messages.None? || |messages.value| == 0 {
      PlainErrorRecord(MissingMessagesText);
    } else {
      var k :| 0 <= k < |messages.value| && MessageProblem(messages.value[k]).Some?
               && e == NewError(MessageProblem(messages.value[k]).value);
      PlainErrorRecord(MessageProblem(messages.value[k]).value);
    }
  }

  /** A plain `Error` is recorded with its text and `'unknown_error'`. */
  lemma PlainErrorRecord(text: string)
    ensures IsErrorInstance(NewError(text)) && !Has(NewError(text), "code")
    ensures FailureRecord(NewError(text)) == ItemFailure(Str(text), Str(UnknownErrorCode))
  {
  }

  /** The node's own schema failure has the same text as `validateJsonSchema`'s, but where
      the validator's error carries `invalid_json_schema`, the node's is recorded as
      `'unknown_error'`. */
  lemma SchemaFailureLosesItsCode(
    model: string, messages: seq<ChatMessage>, options: ChatOptions, parse: JsonParser, context: string
  )
    requires BuildRequestBody(model, messages, options, parse).Err?
    ensures var nodeError := BuildRequestBody(model, messages, options, parse).error;
      var validatorError := ValidateJsonSchema(options.json_schema.value, context, parse).error;
      && ValidateJsonSchema(options.json_schema.value, context, parse).Err?
      && Get(nodeError, "message") == Get(validatorError, "message")
      && FailureRecord(nodeError).error_code == Str(UnknownErrorCode)
      && FailureRecord(validatorError).error_code == Str(InvalidJsonSchema)
  {
  }

  /** A missing or empty message list fails the item with its fixed text and sends nothing. */
  lemma MissingMessagesSendNothing(item: ItemParameters, index: nat, send: NodeTransport, parse: JsonParser)
    requires item.messages.None? || item.messages == Some([])
    ensures ProcessItem(item, index, send, parse) == ItemOutcome(Err(NewError(MissingMessagesText)), None)
  {
  }

  /** A single user message with visible content passes validation. */
  lemma SingleUserMessageIsValid(content: string)
    requires content != "" && !IsJsWhitespace(content[0])
    ensures ValidateMessages(Some([ChatMessage(Some("user"), Some(content))])) == Ok([ChatMessage(Some("user"), Some(content))])
  {
    var msg := ChatMessage(Some("user"), Some(content));
    assert !IsBlank(content);
    assert MessageProblem(msg).None?;
    assert FirstProblem([msg]).None?;
  }

  /** One user message to `solar-mini` with no options: one request whose body holds
      exactly the model and the message, without a `response_format` key. */
  lemma SingleMessageScenario(send: NodeTransport, parse: JsonParser)
    ensures var msg := ChatMessage(Some("user"), Some("hi"));
      var o := ProcessItem(ItemParameters("solar-mini", Some([msg]), NoOptions), 0, send, parse);
      && o.request.Some?
      && o.request.value.body
         == RequestBodyObject("solar-mini", [msg], None, None, None, None, None, None, None, None, None)
  {
    var msg := ChatMessage(Some("user"), Some("hi"));
    SingleUserMessageIsValid("hi");
    assert BuildRequestBody("solar-mini", [msg], NoOptions, parse)
        == Ok(RequestBodyObject("solar-mini", [msg], None, None, None, None, None, None, None, None, None));
  }

  /** One request sent on behalf of item `item`. */
  datatype SentRequest = SentRequest(item: nat, request: NodeRequest)

  /** The processing of the item at each index. */
  type ItemProcessor = nat -> ItemOutcome

  /** The node's processing of `items`, indexed by item. */
  function Processor(items: seq<ItemParameters>, send: NodeTransport, parse: JsonParser): ItemProcessor {
    (i: nat) => if i < |items| then ProcessItem(items[i], i, send, parse) else ItemOutcome(Err(Undefined), None)
  }

  /** The requests sent while processing the first `n` items, in order. */
  function SentBy(process: ItemProcessor, n: nat): seq<SentRequest> {
    if n == 0 then []
    else
      var o := process(n - 1);
      SentBy(process, n - 1) + (if o.request.Some? then [SentRequest(n - 1, o.request.value)] else [])
  }

  /** Each request sent for the first `n` items belongs to one of them, is the request that
      item's processing sends, and there is at most one per item, in item order. */
  lemma {:induction false} SentByBelongsToItems(process: ItemProcessor, n: nat)
    ensures forall k :: 0 <= k < |SentBy(process, n)| ==>
      && SentBy(process, n)[k].item < n
      && process(SentBy(process, n)[k].item).request == Some(SentBy(process, n)[k].request)
      && (k > 0 ==> SentBy(process, n)[k - 1].item < SentBy(process, n)[k].item)
  {
    if n > 0 {
      SentByBelongsToItems(process, n - 1);
      var prefix := SentBy(process, n - 1);
      var o := process(n - 1);
      var sent := SentBy(process, n);
      if o.request.Some? {
        assert sent == prefix + [SentRequest(n - 1, o.request.value)];
        forall k | 0 <= k < |sent|
          ensures && sent[k].item < n
                  && process(sent[k].item).request == Some(sent[k].request)
                  && (k > 0 ==> sent[k - 1].item < sent[k].item)
        {
          if k > 0 {
            assert sent[k - 1] == prefix[k - 1];
          }
          if k < |prefix| {
            assert sent[k] == prefix[k];
          }
        }
      } else {
        assert sent == prefix;
      }
    }
  }

  /** Every item whose processing sends a request appears among the requests sent. */
  lemma {:induction false} SentByIncludesEveryRequest(process: ItemProcessor, n: nat, i: nat)
    requires i < n && process(i).request.Some?
    ensures SentRequest(i, process(i).request.value) in SentBy(process, n)
  {
    if i < n - 1 {
      SentByIncludesEveryRequest(process, n - 1, i);
    }
  }

  /** The output of one run: the output records or the error that aborted it, and every
      request sent before it ended. */
  datatype Run = Run(result: Result<seq<OutputItem>, JsValue>, requests: seq<SentRequest>)

  /** An output record and the index of the input item it pairs with. */
  datatype OutputItem = OutputItem(json: OutputJson, pairedItem: nat)

  /** The item loop of `execute` over `count` items: with continue-on-fail every item
      yields exactly one record paired with its index; without it the first failure aborts
      the run with "Upstage Solar LLM failed for item i: …" and no later item is processed. */
  method RunItems(count: nat, continueOnFail: bool, process: ItemProcessor) returns (run: Run)
    ensures continueOnFail ==> run.result.Ok?
    ensures run.result.Ok? ==>
      && |run.result.value| == count
      && (forall i :: 0 <= i < count ==> run.result.value[i] == OutputItem(RecordOf(process(i).result), i))
      && run.requests == SentBy(process, count)
    ensures !continueOnFail ==> (run.result.Ok? <==> forall i :: 0 <= i < count ==> process(i).result.Ok?)
    ensures run.result.Err? ==>
      exists k :: 0 <= k < count
        && (forall j :: 0 <= j < k ==> process(j).result.Ok?)
        && process(k).result.Err?
        && run.result.error == AbortError(k, process(k).result.error)
        && run.requests == SentBy(process, k + 1)
  {
    var outputs: seq<OutputItem> := [];
    var sent: seq<SentRequest> := [];
    var i := 0;
    while i < count
      invariant 0 <= i <= count
      invariant |outputs| == i
      invariant forall j :: 0 <= j < i ==> outputs[j] == OutputItem(RecordOf(process(j).result), j)
      invariant !continueOnFail ==> forall j :: 0 <= j < i ==> process(j).result.Ok?
      invariant sent == SentBy(process, i)
    {
      var outcome := process(i);
      if outcome.request.Some? {
        sent := sent + [SentRequest(i, outcome.request.value)];
      }
      match outcome.result {
        case Ok(json) =>
          outputs := outputs + [OutputItem(json, i)];
        case Err(error) =>
          if continueOnFail {
            outputs := outputs + [OutputItem(FailureRecord(error), i)];
          } else {
            return Run(Err(AbortError(i, error)), sent);
          }
      }
      i := i + 1;
    }
    return Run(Ok(outputs), sent);
  }

  /** `execute`: the item loop over the node's processing of each input item. */
  method Execute(items: seq<ItemParameters>, continueOnFail: bool, send: NodeTransport, parse: JsonParser)
    returns (run: Run)
    ensures continueOnFail ==> run.result.Ok?
    ensures run.result.Ok? ==>
      && |run.result.value| == |items|
      && (forall i :: 0 <= i < |items| ==>
            run.result.value[i] == OutputItem(RecordOf(ProcessItem(items[i], i, send, parse).result), i))
      && run.requests == SentBy(Processor(items, send, parse), |items|)
    ensures !continueOnFail ==>
      (run.result.Ok? <==> forall i :: 0 <= i < |items| ==> ProcessItem(items[i], i, send, parse).result.Ok?)
    ensures run.result.Err? ==>
      exists k :: 0 <= k < |items|
        && (forall j :: 0 <= j < k ==> ProcessItem(items[j], j, send, parse).result.Ok?)
        && ProcessItem(items[k], k, send, parse).result.Err?
        && run.result.error == AbortError(k, ProcessItem(items[k], k, send, parse).result.error)
        && run.requests == SentBy(Processor(items, send, parse), k + 1)
  {
    var process := Processor(items, send, parse);
    assert forall i :: 0 <= i < |items| ==> process(i) == ProcessItem(items[i], i, send, parse);
    run := RunItems(|items|, continueOnFail, process);
  }
}

=== FILE: results.dfy ===
/** Failure-carrying wrappers shared by every module of the model.
    A JavaScript `throw` is modelled as an `Err` (or `Fail`) carrying the thrown value. */
module Results {

  /** A value that may be absent (`undefined` in the source). */
  datatype Option<+T> = None | Some(value: T) {

    /** The wrapped value, or `default` when absent. */
    function GetOr(default: T): T {
      match this
      case Some(v) => v
      case None => default
    }
  }

  /** The outcome of a call that either returns a value or throws an error. */
  datatype Result<+T, +E> = Ok(value: T) | Err(error: E)

  /** The outcome of a call that returns nothing or throws an error. */
  datatype Outcome<+E> = Pass | Fail(error: E)
}

=== FILE: types.dfy ===
/** The request and response shapes of src/types/index.ts and its two type guards.
    Each typed shape has a `ToJs` (or `AsObject`) giving the object it denotes,
    so that the dynamically built values of the node can be compared with it. */
module Types {
  import opened Results
  import opened JsValues
  import opened Constants

  /** The object `{key: v}` when `v` is present, `{}` when it is absent. */
  function Entry(key: string, v: Option<JsValue>): (m: JsObject)
    ensures key in m <==> v.Some?
    ensures forall k :: k in m ==> k == key
    ensures v.Some? ==> m[key] == v.value
  {
    if v.Some? then map[key := v.value] else map[]
  }

  function StrOpt(v: Option<string>): Option<JsValue> {
    if v.Some? then Some(Str(v.value)) else None
  }

  function NumOpt(v: Option<Number>): Option<JsValue> {
    if v.Some? then Some(Num(v.value)) else None
  }

  function BoolOpt(v: Option<bool>): Option<JsValue> {
    if v.Some? then Some(Bool(v.value)) else None
  }

  /** A chat message as it reaches the node. The declared type promises a role among
      `MessageRoles` and a text content, but nothing enforces it: either may be absent
      (`None`) and the role may be any text. */
  datatype ChatMessage = ChatMessage(role: Option<string>, content: Option<string>) {

    /** The message has the shape its declared type promises. */
    predicate WellTyped() {
      role.Some? && role.value in MessageRoles && content.Some?
    }

    function ToJs(): JsValue {
      Obj(Entry("role", StrOpt(role)) + Entry("content", StrOpt(content)), PlainObject)
    }
  }

  /** The message list as a JavaScript array. */
  function MessagesToJs(messages: seq<ChatMessage>): (v: JsValue)
    ensures v.Arr? && |v.elems| == |messages|
    ensures forall i :: 0 <= i < |messages| ==> v.elems[i] == messages[i].ToJs()
  {
    Arr(seq(|messages|, i requires 0 <= i < |messages| => messages[i].ToJs()))
  }

  /** The tuning fields shared by the options and the request body, as object keys. */
  function TuningProps(
    temperature: Option<Number>, max_tokens: Option<Number>, top_p: Option<Number>,
    stream: Option<bool>, reasoning_effort: Option<string>,
    frequency_penalty: Option<Number>, presence_penalty: Option<Number>
  ): JsObject {
    Entry("temperature", NumOpt(temperature)) + Entry("max_tokens", NumOpt(max_tokens))
    + Entry("top_p", NumOpt(top_p)) + Entry("stream", BoolOpt(stream))
    + Entry("reasoning_effort", StrOpt(reasoning_effort))
    + Entry("frequency_penalty", NumOpt(frequency_penalty))
    + Entry("presence_penalty", NumOpt(presence_penalty))
  }

  /** The node's "Options" collection; an absent option is `None`. `response_format` is
      declared as one of three literals but reaches the code as any text. */
  datatype ChatOptions = ChatOptions(
    temperature: Option<Number>,
    max_tokens: Option<Number>,
    top_p: Option<Number>,
    stream: Option<bool>,
    reasoning_effort: Option<string>,
    frequency_penalty: Option<Number>,
    presence_penalty: Option<Number>,
    response_format: Option<string>,
    json_schema: Option<string>
  )

  /** No option set: the node's default `{}`. */
  const NoOptions: ChatOptions := ChatOptions(None, None, None, None, None, None, None, None, None)

  /** An object that can hold the keys of a chat request body: one field per key, `None`
      where the key is absent. `response_format` may hold the raw text or the object form,
      and `json_schema` the raw schema text. */
  datatype RequestBodyObject = RequestBodyObject(
    model: string,
    messages: seq<ChatMessage>,
    temperature: Option<Number>,
    max_tokens: Option<Number>,
    top_p: Option<Number>,
    stream: Option<bool>,
    reasoning_effort: Option<string>,
    frequency_penalty: Option<Number>,
    presence_penalty: Option<Number>,
    response_format: Option<JsValue>,
    json_schema: Option<string>
  ) {

    /** The object as a JavaScript value. */
    function ToJs(): JsValue {
      Obj(
        map["model" := Str(model), "messages" := MessagesToJs(messages)]
        + TuningProps(temperature, max_tokens, top_p, stream, reasoning_effort, frequency_penalty, presence_penalty)
        + Entry("response_format", response_format) + Entry("json_schema", StrOpt(json_schema)),
        PlainObject)
    }
  }

  /** The structured `response_format` of a request body: `{type, json_schema?}`. */
  datatype ResponseFormatObject = ResponseFormatObject(kind: string, json_schema: Option<JsValue>) {
    /** The declared type of `json_schema` is `object`: an object or array, never `null`
        or a primitive. */
    predicate WellTyped() {
      json_schema.Some? ==> IsObject(json_schema.value)
    }

    function ToJs(): (v: JsValue)
      ensures v.Obj? && v.cls == PlainObject
      ensures v.props.Keys == if json_schema.Some? then {"type", "json_schema"} else {"type"}
      ensures v.props["type"] == Str(kind)
      ensures json_schema.Some? ==> v.props["json_schema"] == json_schema.value
    {
      Obj(map["type" := Str(kind)] + Entry("json_schema", json_schema), PlainObject)
    }
  }

  /** The declared request body: model, messages, the tuning options and only the object
      form of `response_format`. */
  datatype ChatRequestBody = ChatRequestBody(
    model: string,
    messages: seq<ChatMessage>,
    temperature: Option<Number>,
    max_tokens: Option<Number>,
    top_p: Option<Number>,
    stream: Option<bool>,
    reasoning_effort: Option<string>,
    frequency_penalty: Option<Number>,
    presence_penalty: Option<Number>,
    response_format: Option<ResponseFormatObject>
  ) {
    /** Every message and the structured format, when present, meet their declared types. */
    predicate WellTyped() {
      && (forall i :: 0 <= i < |messages| ==> messages[i].WellTyped())
      && FormatWellTyped()
    }

    /** The structured format, when present, meets its declared type. */
    predicate FormatWellTyped() {
      response_format.Some? ==> response_format.value.WellTyped()
    }

    /** The object a declared body denotes: it never has a `json_schema` key, and its
        `response_format`, when present, is an object. */
    function AsObject(): (o: RequestBodyObject)
      ensures o.model == model && o.messages == messages
      ensures o.json_schema.None?
      ensures o.response_format.Some? <==> response_format.Some?
      ensures o.response_format.Some? ==> o.response_format.value.Obj?
    {
      RequestBodyObject(model, messages, temperature, max_tokens, top_p, stream, reasoning_effort,
        frequency_penalty, presence_penalty,
        if response_format.Some? then Some(response_format.value.ToJs()) else None,
        None)
    }
  }

  datatype Choice = Choice(index: Number, role: string, content: string, finish_reason: string) {
    function ToJs(): JsValue {
      Obj(map[
        "index" := Num(index),
        "message" := Obj(map["role" := Str(role), "content" := Str(content)], PlainObject),
        "finish_reason" := Str(finish_reason)], PlainObject)
    }
  }

  datatype Usage = Usage(prompt_tokens: Number, completion_tokens: Number, total_tokens: Number) {
    function ToJs(): JsValue {
      Obj(map[
        "prompt_tokens" := Num(prompt_tokens),
        "completion_tokens" := Num(completion_tokens),
        "total_tokens" := Num(total_tokens)], PlainObject)
    }
  }

  /** The declared success shape of the chat-completions endpoint. */
  datatype ChatCompletionResponse = ChatCompletionResponse(
    id: string, objectKind: string, created: Number, model: string, choices: seq<Choice>, usage: Usage
  ) {
    function ToJs(): JsValue {
      Obj(map[
        "id" := Str(id),
        "object" := Str(objectKind),
        "created" := Num(created),
        "model" := Str(model),
        "choices" := Arr(seq(|choices|, i requires 0 <= i < |choices| => choices[i].ToJs())),
        "usage" := usage.ToJs()], PlainObject)
    }
  }

  /** `isApiError`: a non-null object in which both `code` and `message` are present.
      Presence is enough, whatever the values; every Error inherits `message`. */
  function IsApiError(v: JsValue): (r: bool)
    ensures r <==> v.Obj? && "code" in v.props && ("message" in v.props || v.cls != PlainObject)
    ensures !IsObject(v) ==> !r
  {
    IsObject(v) && Has(v, "code") && Has(v, "message")
  }

  /** `isErrorWithStatusCode`: a non-null object in which `statusCode` is present. */
  function IsErrorWithStatusCode(v: JsValue): (r: bool)
    ensures r <==> v.Obj? && "statusCode" in v.props
    ensures !IsObject(v) ==> !r
  {
    IsObject(v) && Has(v, "statusCode")
  }
}
